=== FILE: README.md ===
# Strike ledger of the support service, in Dafny

This project models the strike / suspension ledger of the support service's
backend. The ledger keeps one profile per user id. Each profile holds:

- an ordered list of strikes, weighted HIGH 1.5, MEDIUM 1.0 and LOW 0.5;
- an append-only history of suspensions;
- an optional time at which the current suspension ends.

Adding a strike runs a suspension check. When the strikes sum to strictly
more than 3, the check fires: it records a suspension holding a snapshot of
the strikes, empties the strike list and sets the end time 90 days ahead. An
amendment lowers the first strike filed under a report ticket by 0.5, at most
once. Two read-side queries report the suspension status. The exported
read-only copy of the ledger is modelled with the same definitions.

Modelling choices:

- The store is a `map<UserId, Profile>`. Every operation is a pure function
  from the store to a result and a new store, i.e. one atomic transition.
- Weights are integer half-units: HIGH 3, MEDIUM 2, LOW 1, threshold 6,
  amendment credit 1. The Python ledger only ever uses multiples of 0.5, so nothing
  is lost.
- Time is an abstract integer clock (seconds), passed in as `now`. The
  service compares `'%Y-%m-%d %H:%M:%S'` strings, which order the same way.
  The end of a suspension is `now + SUSPEND_TIME * DAY`.
- The result of a profile insert is the parameter `insertOk`, an abstract
  storage outcome.
- The exported `check_suspension` calls a lookup its class does not define.
  Here the looked-up profile is passed in as `lookup`.

Modules:

- `Strikes` (strikes.dfy) models api_container/strikes_nosql.py.
- `ExportableStrikes` (exportable_strikes.dfy) models
  export_lib/lib/exportable_strikes_nosql.py.
- `StrikeInvariants` (strike_invariants.dfy) holds the invariants over any
  sequence of calls and the unit-test scenarios.
- `Wrappers` (wrappers.dfy) defines `Option`.

`check_suspension` has the service's polarity. It returns nothing while a
user is still suspended, and the end time once that time has been reached.
`get_all_suspendend` has the opposite polarity: it lists the users still
suspended. `ExportableStrikes.QueriesComplementary` proves that, for a
suspended user, exactly one of the two reports something.

Two behaviours of the service:

- `add_strike` does not check that a report ticket is new. Duplicate
  tickets are appended, and an amendment touches only the first strike with
  that ticket.
- A failed profile insert and an unknown strike type both return None. The
  model keeps this single error outcome (`outcome == None`), distinct from
  "added, no suspension" (`Some(false)`).

## Model

| member | source | states |
|---|---|---|
| Strikes.CreateProfile | api_container/strikes_nosql.py:73-92 | A successful insert leaves the user with an empty profile: no strikes, no suspensions, no end time. A failed insert reports false and changes nothing. Existing profiles are never altered. |
| Strikes.FirstMatch | api_container/strikes_nosql.py:157-160 | Yields the position of the first strike filed under the ticket, with no earlier strike under it. Yields nothing exactly when no strike carries the ticket. |
| Strikes.FirstMatchUnique | api_container/strikes_nosql.py:160 | The first strike under a ticket is unique, so the lookup and the positional update pick the same strike. |
| Strikes.TotalAppend | api_container/strikes_nosql.py:101 | Appending a strike raises the sum by exactly that strike's value. |
| Strikes.TotalUpdate | api_container/strikes_nosql.py:101 | Replacing one strike changes the sum by exactly the difference between the new and old values. |
| Strikes.CheckAfterStrike | api_container/strikes_nosql.py:97-118 | Fires iff the user exists and the strike list is non-empty with a sum strictly above 3. When it fires, one suspension is appended holding the pre-clear strikes. The list is emptied and the end time is set 90 days after now. Other users are untouched. When it does not fire, the store is unchanged. |
| Strikes.PushStrike | api_container/strikes_nosql.py:130-147 | Appends the strike at the end of the user's list and raises the sum by its value. Suspensions, end time and other users are unchanged. |
| Strikes.AddStrike | api_container/strikes_nosql.py:120-151 | Error (None) iff the missing profile cannot be created or the type is not HIGH/MEDIUM/LOW. An error appends no strike; a failed insert for a missing user leaves the store unchanged, and an unknown type may leave a newly created empty profile. On success, one strike is appended with the table value, not amended and with an empty amendment reason. The call returns true iff the new sum is strictly above 3. On true the profile is the firing of the extended list. On false, suspensions and end time are unchanged. |
| Strikes.AmendStrike | api_container/strikes_nosql.py:153-177 | Succeeds iff the profile exists, some strike carries the ticket and the first such strike is not yet amended. On failure nothing changes. On success only that strike changes: its value drops by 0.5 with no floor, and it is marked amended with the reason. The sum drops by exactly 0.5. Suspensions and end time are untouched. |
| Strikes.CheckSuspension | api_container/strikes_nosql.py:179-186 | Returns the end time iff the profile exists, has a suspension and has an end time that is at or before now. In every other case, including while still suspended, it returns None. |
| Strikes.GetAllSuspended | api_container/strikes_nosql.py:188-190 | Contains the user id of every profile whose end time is set and strictly after now. Every member comes from such a profile. |
| Strikes.SuspendedMembership | api_container/strikes_nosql.py:188-190 | In a store keyed by user id, a user is listed iff their end time is set and strictly after now. |
| ExportableStrikes.CheckSuspension | export_lib/lib/exportable_strikes_nosql.py:73-80 | Returns None for a missing profile, no suspensions or no end time. Otherwise it returns None iff now is before the end time, and the end time once now reaches it. |
| ExportableStrikes.GetAllSuspended | export_lib/lib/exportable_strikes_nosql.py:82-84 | In a store keyed by user id, a user is listed iff their end time is set and strictly after now. |
| ExportableStrikes.QueriesComplementary | export_lib/lib/exportable_strikes_nosql.py:80-84 | For a suspended user with an end time, the user is listed as suspended iff `check_suspension` returns None. This includes the instant now equals the end time. |
| StrikeInvariants.EmptyProfileInv | api_container/strikes_nosql.py:75-82 | A freshly inserted profile satisfies the ledger invariant. |
| StrikeInvariants.CreatePreservesInv | api_container/strikes_nosql.py:73-92 | Profile creation keeps the invariant and loses no history. |
| StrikeInvariants.FiredInv | api_container/strikes_nosql.py:104-117 | Firing on an over-threshold list leaves an empty list and an end time. Each recorded snapshot is non-empty and over the threshold, and the earlier history is a prefix of the new one. |
| StrikeInvariants.UpdatePreservesInv | api_container/strikes_nosql.py:105-117 | Writing one well-formed profile under its own user id, with every other profile unchanged, keeps the store invariant. |
| StrikeInvariants.AddedProfileInv | api_container/strikes_nosql.py:130-148 | The profile left by a valid strike satisfies the invariant, whether or not the check fired. Its suspension history extends the old one. |
| StrikeInvariants.AddPreservesInv | api_container/strikes_nosql.py:120-151 | Adding a strike keeps the invariant, so the current sum is never above 3. It also loses no history. |
| StrikeInvariants.AmendPreservesInv | api_container/strikes_nosql.py:153-177 | Amending keeps the invariant and loses no history. |
| StrikeInvariants.StepPreservesInv | api_container/strikes_nosql.py:73-177 | Any single ledger call keeps the invariant and loses no history. |
| StrikeInvariants.RunPreservesInv | api_container/strikes_nosql.py:73-177 | Any sequence of ledger calls keeps the invariant. Suspension histories only grow, and no profile disappears or changes owner. |
| StrikeInvariants.ReachableInv | api_container/strikes_nosql.py:73-177 | Every store reached from the empty store by any sequence of ledger calls satisfies the invariant. |
| StrikeInvariants.StrikesLoweredAtMostOnce | api_container/strikes_nosql.py:153-177 | On every reachable store, each current strike is either un-amended at its table value or amended and exactly 0.5 below it. No strike is ever lowered twice or below zero, whatever calls came in between. |
| StrikeInvariants.FiresOnFirstExcess | api_container/strikes_nosql.py:99-103 | On a store that satisfies the invariant (every reachable store, by `ReachableInv`), the current sum is at most 3. A valid strike fires iff it takes the sum strictly above 3; reaching exactly 3 does not fire. |
| StrikeInvariants.AmendOnce | api_container/strikes_nosql.py:160-163 | Right after a successful amendment, a second amendment of the same ticket returns false and leaves the store unchanged. That a strike is lowered only once across any later calls is `StrikesLoweredAtMostOnce`. |
| StrikeInvariants.EndsSetIffSuspended | api_container/strikes_nosql.py:79-115 | On a store that satisfies the invariant (every reachable store, by `ReachableInv`), the end time is set iff at least one suspension has been recorded. |
| StrikeInvariants.CreateScenario | api_container/tests/test_strikes_nosql.py:38-47 | A profile created for `user_1` has empty strikes and suspensions and no end time. |
| StrikeInvariants.SuspensionScenario | api_container/tests/test_strikes_nosql.py:87-104 | HIGH then HIGH does not fire, and a further LOW fires. Afterwards the strike list is empty and there is one suspension whose snapshot holds report_1, report_2 and report_3. |
| StrikeInvariants.AmendScenario | api_container/tests/test_strikes_nosql.py:68-85 | Amending a HIGH strike leaves one strike of value 1.0, amended, with the given reason, and no suspension. |
| StrikeInvariants.AmendThenAddScenario | api_container/strikes_nosql.py:153-177 | HIGH, amended to 1.0, then MEDIUM sums to 2.0 and does not fire. |

## Left out

- MongoDB plumbing is left out: connection checks, collection creation, `find_one`/`update_one` and the driver's errors. The store is a map, and a failed insert is the abstract `insertOk` outcome.
- The unique index on a `uuid` field that profiles never carry (api_container/strikes_nosql.py:70-71) is not modelled. The index is not sparse, so every profile is indexed under a null `uuid`. In the live database every profile insert after the first therefore fails with `DuplicateKeyError` and returns False (api_container/strikes_nosql.py:84-86). The model does not force that failure: it lets `insertOk` decide each insert.
- Strikes.CreateProfile: inserting for a user who already has a profile, with `insertOk` true, keeps the existing profile. Because of the `uuid` index such a second insert actually fails (`DuplicateKeyError`, returns False), which `insertOk == false` covers. Without that index a second document would be stored, and lookups by user id would keep answering with the first.
- Strikes.AddStrike: the None returned when the strike update itself raises (api_container/strikes_nosql.py:149-151) is not modelled, because storage exceptions are outside the model.
- Wall-clock time and date strings are left out. `now` is an abstract integer clock, and one reading of it serves both the strike time and the suspension end.
- The `created_at`/`updated_at` timestamps are carried but only loosely constrained: they are bookkeeping and no property depends on them.
- Concurrency is left out: the read-then-update races between lookups and updates. Each call is one atomic transition.
- HTTP handlers, SQL report/ticket storage, statistics, chats, notification tokens and notification delivery are left out. They are callers or unrelated persistence. The caller's check that the user is involved in the report is not re-validated by the ledger, which never checks it either.
- The export wrapper's `is_user_suspended` is left out, because it calls a method that does not exist.

=== FILE: exportable_strikes.dfy ===
/**
  The read-side copy of the ledger shipped to other services
  (export_lib/lib/exportable_strikes_nosql.py). Its two queries are the same
  definitions as the ledger's own; the profile lookup that copy leaves
  undefined is passed in as `lookup`.
*/
module ExportableStrikes {
  import opened Wrappers
  import S = Strikes

  /**
    `check_suspension`: None without a profile, without suspensions or
    without an end time; None while `now` is before the end; the end time
    once it has been reached.
  */
  function CheckSuspension(lookup: Option<S.Profile>, now: S.Time): (r: Option<S.Time>)
    ensures lookup.None? ==> r.None?
    ensures lookup.Some? && |lookup.value.suspensions| == 0 ==> r.None?
    ensures lookup.Some? && lookup.value.suspensionEnds.None? ==> r.None?
    ensures lookup.Some? && |lookup.value.suspensions| > 0 && lookup.value.suspensionEnds.Some? ==>
      var ends := lookup.value.suspensionEnds.value;
      && (r.None? <==> now < ends)
      && (r.Some? ==> r.value == ends)
  {
    S.SuspensionStatus(lookup, now)
  }

  /** `get_all_suspendend`: the users whose suspension end lies strictly after `now`. */
  function GetAllSuspended(store: S.Store, now: S.Time): (r: set<S.UserId>)
    ensures S.KeyedByUser(store) ==>
      forall u :: u in r <==> u in store && store[u].suspensionEnds.Some? && store[u].suspensionEnds.value > now
  {
    var r := S.GetAllSuspended(store, now);
    assert S.KeyedByUser(store) ==> forall u :: u in r <==> u in store && S.ActiveAt(store[u], now) by {
      if S.KeyedByUser(store) {
        forall u { S.SuspendedMembership(store, now, u); }
      }
    }
    r
  }

  /**
    For a user who has been suspended and has an end time, exactly one of the
    two queries reports something: the user is listed as suspended, or
    `check_suspension` returns the end time. This holds at `now == ends` too.
  */
  lemma QueriesComplementary(store: S.Store, uid: S.UserId, now: S.Time)
    requires S.KeyedByUser(store)
    requires uid in store
    requires |store[uid].suspensions| > 0 && store[uid].suspensionEnds.Some?
    ensures (uid in GetAllSuspended(store, now)) <==> CheckSuspension(S.Lookup(store, uid), now).None?
  {
    S.SuspendedMembership(store, now, uid);
  }
}

=== FILE: strike_invariants.dfy ===
/**
  Invariants of the strike ledger that hold across any sequence of
  operations, and the concrete scenarios of the ledger's unit tests
  (api_container/tests/test_strikes_nosql.py).
*/
module StrikeInvariants {
  import opened Wrappers
  import opened Strikes

  /**
    What every reachable profile satisfies:
    - it has an end time exactly when it has been suspended at least once;
    - its current strikes never sum to more than the threshold (a strike that
      would take them over fires a suspension and clears them);
    - every recorded suspension holds a non-empty snapshot over the threshold;
    - every current strike is weighed by the severity table, less one
      amendment credit exactly when it has been amended.
  */
  predicate ProfileInv(p: Profile)
  {
    && (p.suspensionEnds.Some? <==> |p.suspensions| > 0)
    && Total(p.strikes) <= MAX_STRIKES
    && (forall k :: 0 <= k < |p.suspensions| ==> ExceedsLimit(p.suspensions[k].suspensionStrikes))
    && forall j :: 0 <= j < |p.strikes| ==> WellWeighted(p.strikes[j])
  }

  /** A strike's value is a severity from the table, lowered by the credit once if it was amended. */
  predicate WellWeighted(x: Strike)
  {
    x.strikeValue + (if x.amended then AMMEND_STRIKE else 0) in STRIKE_VALUES.Values
  }

  predicate StoreInv(store: Store)
  {
    && KeyedByUser(store)
    && forall u :: u in store ==> ProfileInv(store[u])
  }

  /** No profile disappears, changes owner or loses a suspension from its history. */
  predicate HistoryKept(store: Store, store': Store)
  {
    forall k :: k in store ==>
      && k in store'
      && store'[k].userId == store[k].userId
      && store[k].suspensions <= store'[k].suspensions
  }

  /** One call into the ledger. `insertOk` is the storage outcome of a profile insert. */
  datatype Op =
    | CreateOp(uid: UserId, insertOk: bool)
    | AddOp(uid: UserId, reportTk: ReportTk, strikeType: string, reason: string, insertOk: bool)
    | AmendOp(uid: UserId, reportTk: ReportTk, reason: string)

  datatype Event = Event(op: Op, now: Time)

  function Step(store: Store, e: Event): Store
  {
    match e.op
    case CreateOp(uid, ok) => CreateProfile(store, uid, e.now, ok).store
    case AddOp(uid, tk, t, reason, ok) => AddStrike(store, uid, tk, t, reason, e.now, ok).store
    case AmendOp(uid, tk, reason) => AmendStrike(store, uid, tk, reason, e.now).store
  }

  /** The store after a sequence of calls, oldest first. */
  function Run(store: Store, trace: seq<Event>): Store
    decreases |trace|
  {
    if |trace| == 0 then store else Run(Step(store, trace[0]), trace[1..])
  }

  lemma EmptyProfileInv(uid: UserId, now: Time)
    ensures ProfileInv(EmptyProfile(uid, now))
  {
  }

  lemma CreatePreservesInv(store: Store, uid: UserId, now: Time, ok: bool)
    requires StoreInv(store)
    ensures StoreInv(CreateProfile(store, uid, now, ok).store)
    ensures HistoryKept(store, CreateProfile(store, uid, now, ok).store)
  {
  }

  /** A firing leaves an empty strike list and records a snapshot that is over the threshold. */
  lemma FiredInv(p: Profile, q: Profile, now: Time)
    requires ProfileInv(p.(strikes := []))
    requires ExceedsLimit(p.strikes)
    requires FiredFrom(p, q, now)
    ensures ProfileInv(q)
    ensures p.suspensions <= q.suspensions
  {
    forall k | 0 <= k < |q.suspensions|
      ensures ExceedsLimit(q.suspensions[k].suspensionStrikes)
    {
      if k < |p.suspensions| {
        assert q.suspensions[k] == q.suspensions[..|p.suspensions|][k];
      }
    }
  }

  /** Replacing (or adding) one well-formed profile keeps the store invariant. */
  lemma UpdatePreservesInv(store: Store, store': Store, uid: UserId)
    requires StoreInv(store)
    requires store'.Keys == store.Keys + {uid}
    requires forall k :: k in store && k != uid ==> store'[k] == store[k]
    requires store'[uid].userId == uid && ProfileInv(store'[uid])
    ensures StoreInv(store')
  {
  }

  /** The profile a valid `add_strike` leaves behind satisfies the invariant and extends the history. */
  lemma AddedProfileInv(p: Profile, x: Strike, q: Profile, fired: bool, now: Time)
    requires ProfileInv(p)
    requires WellWeighted(x)
    requires fired <==> Total(p.strikes) + x.strikeValue > MAX_STRIKES
    requires fired ==> FiredFrom(p.(strikes := p.strikes + [x]), q, now)
    requires !fired ==>
      q.strikes == p.strikes + [x] && q.suspensions == p.suspensions && q.suspensionEnds == p.suspensionEnds
    ensures ProfileInv(q)
    ensures p.suspensions <= q.suspensions
  {
    TotalAppend(p.strikes, x);
    if fired {
      FiredInv(p.(strikes := p.strikes + [x]), q, now);
    } else {
      forall j | 0 <= j < |q.strikes|
        ensures WellWeighted(q.strikes[j])
      {
        if j < |p.strikes| {
          assert q.strikes[j] == p.strikes[j];
        }
      }
    }
  }

  lemma AddPreservesInv(store: Store, uid: UserId, tk: ReportTk, t: string, reason: string, now: Time, ok: bool)
    requires StoreInv(store)
    ensures StoreInv(AddStrike(store, uid, tk, t, reason, now, ok).store)
    ensures HistoryKept(store, AddStrike(store, uid, tk, t, reason, now, ok).store)
  {
    var r := AddStrike(store, uid, tk, t, reason, now, ok);
    var p := ProfileBefore(store, uid, now);
    if r.outcome.Some? {
      var x := NewStrike(tk, STRIKE_VALUES[t], reason, now);
      assert WellWeighted(x);
      AddedProfileInv(p, x, r.store[uid], r.outcome.value, now);
      UpdatePreservesInv(store, r.store, uid);
    } else if uid in r.store && uid !in store {
      EmptyProfileInv(uid, now);
      UpdatePreservesInv(store, r.store, uid);
    }
  }

  lemma AmendPreservesInv(store: Store, uid: UserId, tk: ReportTk, reason: string, now: Time)
    requires StoreInv(store)
    ensures StoreInv(AmendStrike(store, uid, tk, reason, now).store)
    ensures HistoryKept(store, AmendStrike(store, uid, tk, reason, now).store)
  {
    var r := AmendStrike(store, uid, tk, reason, now);
    if r.ok {
      var p := store[uid];
      var q := r.store[uid];
      var i := FirstMatch(p.strikes, tk).value;
      assert WellWeighted(p.strikes[i]);
      forall j | 0 <= j < |q.strikes|
        ensures WellWeighted(q.strikes[j])
      {
        if j != i {
          assert q.strikes[j] == p.strikes[j];
          assert WellWeighted(p.strikes[j]);
        }
      }
      assert ProfileInv(q);
      UpdatePreservesInv(store, r.store, uid);
    }
  }

  lemma StepPreservesInv(store: Store, e: Event)
    requires StoreInv(store)
    ensures StoreInv(Step(store, e))
    ensures HistoryKept(store, Step(store, e))
  {
    match e.op
    case CreateOp(uid, ok) => CreatePreservesInv(store, uid, e.now, ok);
    case AddOp(uid, tk, t, reason, ok) => AddPreservesInv(store, uid, tk, t, reason, e.now, ok);
    case AmendOp(uid, tk, reason) => AmendPreservesInv(store, uid, tk, reason, e.now);
  }

  /**
    Starting from a store that satisfies the invariant (the empty store
    does), every sequence of ledger calls keeps it, and suspension histories
    only grow.
  */
  lemma {:induction false} RunPreservesInv(store: Store, trace: seq<Event>)
    requires StoreInv(store)
    ensures StoreInv(Run(store, trace))
    ensures HistoryKept(store, Run(store, trace))
    decreases |trace|
  {
    if |trace| > 0 {
      var next := Step(store, trace[0]);
      StepPreservesInv(store, trace[0]);
      RunPreservesInv(next, trace[1..]);
    }
  }

  /**
    On a reachable profile, `add_strike` fires exactly when the new strike
    takes the running sum from at most the threshold to strictly above it.
  */
  lemma FiresOnFirstExcess(store: Store, uid: UserId, tk: ReportTk, t: string, reason: string, now: Time)
    requires StoreInv(store) && uid in store && t in STRIKE_VALUES
    ensures Total(store[uid].strikes) <= MAX_STRIKES
    ensures AddStrike(store, uid, tk, t, reason, now, true).outcome == Some(true) <==>
      Total(store[uid].strikes) + STRIKE_VALUES[t] > MAX_STRIKES
  {
  }

  /**
    A strike can be amended once: right after a successful amendment, the
    same report ticket's first strike is marked amended, so a second attempt
    returns false and changes nothing.
  */
  lemma AmendOnce(store: Store, uid: UserId, tk: ReportTk, reason: string, reason': string, now: Time, now': Time)
    ensures
      var a := AmendStrike(store, uid, tk, reason, now);
      a.ok ==> AmendStrike(a.store, uid, tk, reason', now') == Amended(false, a.store)
  {
    var a := AmendStrike(store, uid, tk, reason, now);
    if a.ok {
      var s := store[uid].strikes;
      var s' := a.store[uid].strikes;
      var i := FirstMatch(s, tk).value;
      assert IsFirstMatch(s', tk, i);
      FirstMatchUnique(s', tk, i, FirstMatch(s', tk).value);
    }
  }

  /** The empty store satisfies the invariant, so every store a trace of calls reaches from it does too. */
  lemma ReachableInv(trace: seq<Event>)
    ensures StoreInv(Run(map[], trace))
  {
    RunPreservesInv(map[], trace);
  }

  /**
    A strike is lowered at most once: on every reachable store, each current
    strike of a user is either un-amended at its table value, or amended
    and exactly one credit below its table value, so never below zero.
  */
  lemma {:induction false} StrikesLoweredAtMostOnce(trace: seq<Event>, uid: UserId, j: int)
    requires uid in Run(map[], trace)
    requires 0 <= j < |Run(map[], trace)[uid].strikes|
    ensures
      var x := Run(map[], trace)[uid].strikes[j];
      && (!x.amended ==> x.strikeValue in STRIKE_VALUES.Values)
      && (x.amended ==> x.strikeValue + AMMEND_STRIKE in STRIKE_VALUES.Values)
      && x.strikeValue >= 0
  {
    ReachableInv(trace);
    var x := Run(map[], trace)[uid].strikes[j];
    assert WellWeighted(x);
    assert STRIKE_VALUES.Values == {3, 2, 1} by {
      assert STRIKE_VALUES["HIGH"] == 3 && STRIKE_VALUES["MEDIUM"] == 2 && STRIKE_VALUES["LOW"] == 1;
    }
  }

  /** On a reachable store, the end time is set exactly when a suspension has been recorded. */
  lemma EndsSetIffSuspended(store: Store, uid: UserId)
    requires StoreInv(store) && uid in store
    ensures store[uid].suspensionEnds.Some? <==> |store[uid].suspensions| > 0
  {
  }

  // ---------------------------------------------------------------------
  // Unit-test scenarios

  /** A fresh profile has no strikes, no suspensions and no end time. */
  lemma CreateScenario(now: Time)
    ensures
      var c := CreateProfile(map[], "user_1", now, true);
      && c.ok
      && c.store["user_1"] == Profile("user_1", [], [], None, now, now)
  {
  }

  /** HIGH then HIGH sums to exactly the threshold and does not fire; a further LOW fires. */
  lemma SuspensionScenario(now: Time)
    ensures
      var s0 := CreateProfile(map[], "user_1", now, true).store;
      var a1 := AddStrike(s0, "user_1", "report_1", "HIGH", "Test strike", now, true);
      var a2 := AddStrike(a1.store, "user_1", "report_2", "HIGH", "Test strike", now, true);
      var a3 := AddStrike(a2.store, "user_1", "report_3", "LOW", "Test strike", now, true);
      && a1.outcome == Some(false)
      && a2.outcome == Some(false)
      && a3.outcome == Some(true)
      && a3.store["user_1"].strikes == []
      && |a3.store["user_1"].suspensions| == 1
      && (set x | x in a3.store["user_1"].suspensions[0].suspensionStrikes :: x.reportTk)
           == {"report_1", "report_2", "report_3"}
  {
  }

  /** Amending a HIGH strike lowers it from 1.5 to 1.0 and records the reason. */
  lemma AmendScenario(now: Time)
    ensures
      var s0 := CreateProfile(map[], "user_1", now, true).store;
      var a1 := AddStrike(s0, "user_1", "report_1", "HIGH", "Test strike", now, true);
      var m := AmendStrike(a1.store, "user_1", "report_1", "Ammended test strike", now);
      && a1.outcome == Some(false)
      && m.ok
      && |m.store["user_1"].strikes| == 1
      && m.store["user_1"].suspensions == []
      && m.store["user_1"].strikes[0] ==
           Strike("report_1", 2, "Test strike", true, "Ammended test strike", now, now)
  {
  }

  /** An amendment counts toward later checks: HIGH, amended, then MEDIUM sums to 2.0 and does not fire. */
  lemma AmendThenAddScenario(now: Time)
    ensures
      var s0 := CreateProfile(map[], "user_1", now, true).store;
      var a1 := AddStrike(s0, "user_1", "report_1", "HIGH", "r", now, true);
      var m := AmendStrike(a1.store, "user_1", "report_1", "a", now);
      var a2 := AddStrike(m.store, "user_1", "report_2", "MEDIUM", "r", now, true);
      && a2.outcome == Some(false)
      && Total(a2.store["user_1"].strikes) == 4
  {
    var s0 := CreateProfile(map[], "user_1", now, true).store;
    var a1 := AddStrike(s0, "user_1", "report_1", "HIGH", "r", now, true);
    assert Total(a1.store["user_1"].strikes) == 3;
    var m := AmendStrike(a1.store, "user_1", "report_1", "a", now);
    assert m.ok;
    assert Total(m.store["user_1"].strikes) == 2;
    var a2 := AddStrike(m.store, "user_1", "report_2", "MEDIUM", "r", now, true);
    assert a2.outcome == Some(false);
    TotalAppend(m.store["user_1"].strikes, NewStrike("report_2", 2, "r", now));
  }
}

=== FILE: strikes.dfy ===
/**
  The strike / suspension ledger of the support service
  (api_container/strikes_nosql.py).

  One profile is kept per user id. A profile holds an ordered list of
  strikes, an append-only list of suspensions and an optional time at which
  the current suspension ends. Every operation is one atomic transition of
  the whole store, which is a map from user id to profile.

  Strike weights are integer HALF-UNITS: 1 stands for the Python ledger's 0.5, so
  HIGH 1.5, MEDIUM 1.0 and LOW 0.5 become 3, 2 and 1, the threshold 3 becomes
  6 and the amendment credit 0.5 becomes 1. Times are seconds on an abstract
  integer clock that the caller passes in as `now`.
*/
module Strikes {
  import opened Wrappers

  type UserId = string
  type ReportTk = string
  type Time = int

  /** Suspension threshold, 3.0 in half-units. */
  const MAX_STRIKES: int := 6
  /** Severity table, in half-units. */
  const STRIKE_VALUES: map<string, int> := map["HIGH" := 3, "MEDIUM" := 2, "LOW" := 1]
  /** Credit taken off a strike by an amendment, 0.5 in half-units. */
  const AMMEND_STRIKE: int := 1
  /** Length of a suspension, in days. */
  const SUSPEND_TIME: int := 90
  /** Seconds in a day. */
  const DAY: int := 24 * 60 * 60

  datatype Strike = Strike(
    reportTk: ReportTk,
    strikeValue: int,
    strikeReason: string,
    amended: bool,
    amendedReason: string,
    strikeAt: Time,
    updatedAt: Time)

  datatype Suspension = Suspension(suspensionAt: Time, suspensionStrikes: seq<Strike>)

  datatype Profile = Profile(
    userId: UserId,
    strikes: seq<Strike>,
    suspensions: seq<Suspension>,
    suspensionEnds: Option<Time>,
    createdAt: Time,
    updatedAt: Time)

  type Store = map<UserId, Profile>

  /** Outcome of a profile insert, and the store after it. */
  datatype Created = Created(ok: bool, store: Store)

  /** Outcome of the suspension check run after a strike is added. */
  datatype Checked = Checked(fired: bool, store: Store)

  /** Outcome of `add_strike`: None is the error result, Some(b) says whether a suspension fired. */
  datatype Added = Added(outcome: Option<bool>, store: Store)

  /** Outcome of an amendment, and the store after it. */
  datatype Amended = Amended(ok: bool, store: Store)

  // ---------------------------------------------------------------------
  // Sums and lookups over the strike list

  /** Sum of the strike values of a list, in half-units. */
  function Total(s: seq<Strike>): int
  {
    if |s| == 0 then 0 else Total(s[..|s| - 1]) + s[|s| - 1].strikeValue
  }

  lemma TotalAppend(s: seq<Strike>, x: Strike)
    ensures Total(s + [x]) == Total(s) + x.strikeValue
  {
    assert (s + [x])[..|s|] == s;
  }

  /** Replacing one strike changes the sum by the difference of the two values. */
  lemma {:induction false} TotalUpdate(s: seq<Strike>, i: nat, x: Strike)
    requires i < |s|
    ensures Total(s[i := x]) == Total(s) - s[i].strikeValue + x.strikeValue
  {
    var n := |s| - 1;
    if i == n {
      assert s[i := x][..n] == s[..n];
    } else {
      assert s[i := x][..n] == s[..n][i := x];
      TotalUpdate(s[..n], i, x);
    }
  }

  /** True when `i` is the position of the first strike of `s` filed under `tk`. */
  predicate IsFirstMatch(s: seq<Strike>, tk: ReportTk, i: int)
  {
    && 0 <= i < |s|
    && s[i].reportTk == tk
    && forall j :: 0 <= j < i ==> s[j].reportTk != tk
  }

  /** Position of the first strike filed under `tk`, if any. */
  function FirstMatch(s: seq<Strike>, tk: ReportTk): (r: Option<nat>)
    ensures r.Some? ==> IsFirstMatch(s, tk, r.value)
    ensures r.None? <==> forall j :: 0 <= j < |s| ==> s[j].reportTk != tk
  {
    if |s| == 0 then None
    else if s[0].reportTk == tk then Some(0)
    else match FirstMatch(s[1..], tk)
      case None => None
      case Some(i) => Some(i + 1)
  }

  /** The first match is unique. */
  lemma FirstMatchUnique(s: seq<Strike>, tk: ReportTk, i: int, j: int)
    requires IsFirstMatch(s, tk, i) && IsFirstMatch(s, tk, j)
    ensures i == j
  {
  }

  // ---------------------------------------------------------------------
  // Profiles

  /** The profile `_create_strikes_profile` inserts. */
  function EmptyProfile(userId: UserId, now: Time): Profile
  {
    Profile(userId, [], [], None, now, now)
  }

  predicate IsEmptyProfile(p: Profile, userId: UserId)
  {
    p.userId == userId && p.strikes == [] && p.suspensions == [] && p.suspensionEnds == None
  }

  /** The strike `add_strike` appends. */
  function NewStrike(reportTk: ReportTk, value: int, reason: string, now: Time): Strike
  {
    Strike(reportTk, value, reason, false, "", now, now)
  }

  /** A suspension fires on a non-empty strike list whose sum is strictly above the threshold. */
  predicate ExceedsLimit(s: seq<Strike>)
  {
    |s| > 0 && Total(s) > MAX_STRIKES
  }

  /**
    `q` is `p` after a suspension fired at `now`: one suspension appended
    holding the strikes of `p`, the strike list emptied and the end of the
    suspension set 90 days ahead.
  */
  predicate FiredFrom(p: Profile, q: Profile, now: Time)
  {
    && q.userId == p.userId
    && q.createdAt == p.createdAt
    && q.strikes == []
    && |q.suspensions| == |p.suspensions| + 1
    && q.suspensions[..|p.suspensions|] == p.suspensions
    && q.suspensions[|p.suspensions|] == Suspension(now, p.strikes)
    && q.suspensionEnds == Some(now + SUSPEND_TIME * DAY)
    && q.updatedAt == now
  }

  /** Every profile other than `uid`'s is the same in both stores, and no profile appears or disappears. */
  predicate OthersUnchanged(store: Store, store': Store, uid: UserId)
  {
    && store'.Keys == store.Keys
    && forall k :: k in store && k != uid ==> store'[k] == store[k]
  }

  // ---------------------------------------------------------------------
  // Operations

  /**
    `_create_strikes_profile`. `insertOk` is the abstract outcome of the
    storage insert; a failed insert leaves the store as it was. A profile
    that already exists is kept: the store is keyed by user id.
  */
  function CreateProfile(store: Store, uid: UserId, now: Time, insertOk: bool): (r: Created)
    ensures r.ok <==> insertOk
    ensures r.store.Keys == if insertOk then store.Keys + {uid} else store.Keys
    ensures forall k :: k in store ==> r.store[k] == store[k]
    ensures uid !in store && insertOk ==> IsEmptyProfile(r.store[uid], uid)
  {
    if !insertOk then Created(false, store)
    else if uid in store then Created(true, store)
    else Created(true, store[uid := EmptyProfile(uid, now)])
  }

  /**
    `_check_suspension`, run right after a strike is added: fires when the
    user's strike list is non-empty and sums to more than the threshold.
  */
  function CheckAfterStrike(store: Store, uid: UserId, now: Time): (r: Checked)
    ensures r.fired <==> uid in store && ExceedsLimit(store[uid].strikes)
    ensures !r.fired ==> r.store == store
    ensures r.fired ==> OthersUnchanged(store, r.store, uid) && FiredFrom(store[uid], r.store[uid], now)
  {
    if uid !in store || |store[uid].strikes| == 0 then Checked(false, store)
    else if Total(store[uid].strikes) <= MAX_STRIKES then Checked(false, store)
    else
      var p := store[uid];
      var q := p.(
        suspensions := p.suspensions + [Suspension(now, p.strikes)],
        strikes := [],
        updatedAt := now,
        suspensionEnds := Some(now + SUSPEND_TIME * DAY));
      Checked(true, store[uid := q])
  }

  /** The profile `add_strike` works on: the stored one, or the one it is about to create. */
  function ProfileBefore(store: Store, uid: UserId, now: Time): Profile
  {
    if uid in store then store[uid] else EmptyProfile(uid, now)
  }

  /** The `$push` of `add_strike`: appends `x` to the strikes of `uid` and touches nothing else. */
  function PushStrike(store: Store, uid: UserId, x: Strike, now: Time): (r: Store)
    requires uid in store
    ensures OthersUnchanged(store, r, uid)
    ensures r[uid] == store[uid].(strikes := r[uid].strikes, updatedAt := now)
    ensures r[uid].strikes == store[uid].strikes + [x]
    ensures Total(r[uid].strikes) == Total(store[uid].strikes) + x.strikeValue
  {
    TotalAppend(store[uid].strikes, x);
    store[uid := store[uid].(strikes := store[uid].strikes + [x], updatedAt := now)]
  }

  /**
    `add_strike`. A missing profile is created first (which can fail); an
    unknown strike type is then rejected; otherwise one strike is appended
    and the suspension check runs on the extended list.
  */
  function AddStrike(store: Store, uid: UserId, reportTk: ReportTk, strikeType: string,
                     reason: string, now: Time, insertOk: bool): (r: Added)
    ensures r.outcome.None? <==> (uid !in store && !insertOk) || strikeType !in STRIKE_VALUES
    ensures r.outcome == Some(true) <==>
      strikeType in STRIKE_VALUES && (uid in store || insertOk) &&
      Total(ProfileBefore(store, uid, now).strikes) + STRIKE_VALUES[strikeType] > MAX_STRIKES
    // error results append no strike; only the profile creation may have happened
    ensures r.outcome.None? ==> forall k :: k in store ==> k in r.store && r.store[k] == store[k]
    ensures uid !in store && !insertOk ==> r.store == store
    ensures r.outcome.None? ==> r.store.Keys <= store.Keys + {uid}
    ensures r.outcome.None? && uid !in store && uid in r.store ==> IsEmptyProfile(r.store[uid], uid)
    ensures r.outcome.None? && uid !in store && insertOk ==> uid in r.store
    // a valid strike goes to the end of the list of `uid` and no other profile changes
    ensures r.outcome.Some? ==>
      && r.store.Keys == store.Keys + {uid}
      && (forall k :: k in store && k != uid ==> r.store[k] == store[k])
    ensures r.outcome == Some(true) ==>
      var p := ProfileBefore(store, uid, now);
      var s := p.strikes + [NewStrike(reportTk, STRIKE_VALUES[strikeType], reason, now)];
      FiredFrom(p.(strikes := s), r.store[uid], now)
    ensures r.outcome == Some(false) ==>
      var p := ProfileBefore(store, uid, now);
      && r.store[uid].strikes == p.strikes + [NewStrike(reportTk, STRIKE_VALUES[strikeType], reason, now)]
      && r.store[uid].suspensions == p.suspensions
      && r.store[uid].suspensionEnds == p.suspensionEnds
      && r.store[uid].userId == p.userId
  {
    var created := if uid in store then Created(true, store) else CreateProfile(store, uid, now, insertOk);
    if !created.ok then Added(None, store)
    else if strikeType !in STRIKE_VALUES then Added(None, created.store)
    else
      var pushed := PushStrike(created.store, uid, NewStrike(reportTk, STRIKE_VALUES[strikeType], reason, now), now);
      var checked := CheckAfterStrike(pushed, uid, now);
      Added(Some(checked.fired), checked.store)
  }

  /**
    `ammend_strike`. Finds the first strike filed under `reportTk`; when it
    exists and has not been amended yet, lowers its value by the amendment
    credit and marks it amended. Nothing else changes and no suspension check
    runs.
  */
  function AmendStrike(store: Store, uid: UserId, reportTk: ReportTk, reason: string, now: Time): (r: Amended)
    ensures r.ok <==>
      && uid in store
      && FirstMatch(store[uid].strikes, reportTk).Some?
      && !store[uid].strikes[FirstMatch(store[uid].strikes, reportTk).value].amended
    ensures !r.ok ==> r.store == store
    ensures r.ok ==> uid in store && OthersUnchanged(store, r.store, uid)
    ensures r.ok ==>
      var p := store[uid];
      var q := r.store[uid];
      var i := FirstMatch(p.strikes, reportTk).value;
      && |q.strikes| == |p.strikes|
      && (forall j :: 0 <= j < |p.strikes| && j != i ==> q.strikes[j] == p.strikes[j])
      && q.strikes[i].strikeValue == p.strikes[i].strikeValue - AMMEND_STRIKE
      && q.strikes[i].amended
      && q.strikes[i].amendedReason == reason
      && q.strikes[i].reportTk == p.strikes[i].reportTk
      && q.strikes[i].strikeReason == p.strikes[i].strikeReason
      && q.strikes[i].strikeAt == p.strikes[i].strikeAt
      && Total(q.strikes) == Total(p.strikes) - AMMEND_STRIKE
      && q.suspensions == p.suspensions
      && q.suspensionEnds == p.suspensionEnds
      && q.userId == p.userId
  {
    if uid !in store || |store[uid].strikes| == 0 then Amended(false, store)
    else
      var p := store[uid];
      match FirstMatch(p.strikes, reportTk)
      case None => Amended(false, store)
      case Some(i) =>
        var hit := p.strikes[i];
        if hit.amended then Amended(false, store)
        else
          var x := hit.(
            strikeValue := hit.strikeValue - AMMEND_STRIKE,
            amended := true,
            amendedReason := reason,
            updatedAt := now);
          TotalUpdate(p.strikes, i, x);
          Amended(true, store[uid := p.(strikes := p.strikes[i := x], updatedAt := now)])
  }

  // ---------------------------------------------------------------------
  // Status queries

  /**
    The body of `check_suspension` once the profile is looked up. It answers
    None while the user is still suspended and the end time once that time
    has been reached, which is how the service answers.
  */
  function SuspensionStatus(lookup: Option<Profile>, now: Time): Option<Time>
  {
    match lookup
    case None => None
    case Some(p) =>
      if |p.suspensions| == 0 then None
      else match p.suspensionEnds
        case None => None
        case Some(ends) => if now < ends then None else Some(ends)
  }

  function Lookup(store: Store, uid: UserId): Option<Profile>
  {
    if uid in store then Some(store[uid]) else None
  }

  /** `check_suspension` on the ledger's own store. */
  function CheckSuspension(store: Store, uid: UserId, now: Time): (r: Option<Time>)
    ensures uid !in store ==> r.None?
    ensures r.Some? <==>
      && uid in store
      && |store[uid].suspensions| > 0
      && store[uid].suspensionEnds.Some?
      && store[uid].suspensionEnds.value <= now
    ensures r.Some? ==> r == store[uid].suspensionEnds
  {
    SuspensionStatus(Lookup(store, uid), now)
  }

  /** A profile whose suspension end lies strictly after `now` (Mongo's `$gt`; an unset end never matches). */
  predicate ActiveAt(p: Profile, now: Time)
  {
    p.suspensionEnds.Some? && p.suspensionEnds.value > now
  }

  /** `get_all_suspendend`: the user ids of every profile whose suspension has not ended. */
  function GetAllSuspended(store: Store, now: Time): (r: set<UserId>)
    ensures forall k :: k in store && ActiveAt(store[k], now) ==> store[k].userId in r
    ensures forall u :: u in r ==> exists k :: k in store && store[k].userId == u && ActiveAt(store[k], now)
  {
    set k | k in store && ActiveAt(store[k], now) :: store[k].userId
  }

  /** Every profile is stored under its own user id, as `_create_strikes_profile` files it. */
  predicate KeyedByUser(store: Store)
  {
    forall k :: k in store ==> store[k].userId == k
  }

  /** In a store keyed by user id, `get_all_suspendend` holds exactly the users whose suspension end lies after `now`. */
  lemma SuspendedMembership(store: Store, now: Time, u: UserId)
    requires KeyedByUser(store)
    ensures u in GetAllSuspended(store, now) <==> u in store && ActiveAt(store[u], now)
  {
    if u in GetAllSuspended(store, now) {
      var k :| k in store && store[k].userId == u && ActiveAt(store[k], now);
      assert k == u;
    }
  }
}

=== FILE: wrappers.dfy ===
/** Optional values: the model's stand-in for Python's `None`. */
module Wrappers {

  datatype Option<+T> = None | Some(value: T)
}
